=== FILE: README.md ===
# Portfolio and mock-interview backend: a Dafny model

This project models the core of a career-coach backend. The centre is the
portfolio generator. It takes the loosely typed resume record that an AI step
produced from an uploaded CV and does three things:

- it picks the work-experience source;
- it merges that source with the internships and normalises every
  `description` to a list;
- it builds the template context and renders the chosen template.

Any failure gives `None`. Around the generator the project models the pure
decisions of the two portfolio endpoints (`generate-direct`, `save-edited`) and
the request guards of the three mock-interview endpoints (`chat`, `video`,
`summarize`).

Modules:

- `Wrappers` (wrappers.dfy): `Option`, and `Result` for a handler that either
  returns a value or fails with an HTTP status (400 or 500).
- `JsonValue` (json.dfy): the `Json` value type (null, bool, number, string,
  list, object) with Python truthiness.
- `Text` (text.dfy): Python's `str.strip()` with its exact whitespace set,
  `rstrip(c)`, `[:n]`, substring search and ASCII `lower()`.
- `PortfolioCore` (portfolio_core.dfy): `generate_portfolio_website`. The
  template environment is a fixed map from template names to render
  functions, and a render function returns `None` when rendering raises.
- `PortfolioProperties` (portfolio_properties.dfy): lemmas about the
  generator.
- `PortfolioRouter` (portfolio_router.dfy): `os.path.splitext` as a loop
  following CPython's algorithm, the fallback record, file names, the public
  URL, and the two endpoints.
- `InterviewRouter` (interview_router.dfy): the request models and the three
  interview guards.

In these places the code behaves differently from what a reader might
expect; the model follows the code:

- **Malformed entries.** A non-object entry in the merged experience or in
  `projects` makes the generator return `None`. Looking up `description` on
  such an entry raises, and the exception is caught. These entries are not
  skipped.
- **Iterating `projects`.** `projects` is iterated as it is:
  - `null`, booleans and numbers make the generator fail;
  - a non-empty string or non-empty object fails, because iterating it yields
    strings;
  - `""` and `{}` pass through unchanged, so `projects` is not always a list.
- **Internships.** Internship entries are normalised too.
- **In-place normalisation.** The generator normalises the entry dicts in
  place. The chosen work list (`work_experience` or `experience`) and
  `internships` therefore reach the template with normalised entries. Only
  the remaining keys are carried over unchanged.
  - `PortfolioProperties.ContextAtKey` states this key by key;
    `PortfolioProperties.ContextKeepsOtherKeys` and
    `PortfolioProperties.ContextNormalisesIteratedLists` state it for all keys.
  - `PortfolioProperties.ContextKeepsNormalRecord` gives the condition under
    which every key other than `full_experience` and `projects` is unchanged:
    no merged entry has a string description.

## Model

| member | source | states |
|---|---|---|
| JsonValue.GetOrEmpty | core/portfolio_core.py:12-13 | `d.get(key, [])`: the stored value when the key is present, `[]` when it is absent |
| JsonValue.ListItems | core/portfolio_core.py:17-18 | a value guarded by `isinstance(v, list)` contributes its items to `extend` when it is a list and nothing otherwise |
| PortfolioCore.WorkSource | core/portfolio_core.py:12 | the experience comes from `work_experience` when it is present and truthy, otherwise from `experience`, otherwise from `[]`; never from both |
| PortfolioCore.WorkOrigin | core/portfolio_core.py:12 | the key whose list the loop mutates: `work_experience` when truthy, else `experience` when present, else none; its value is `WorkSource` |
| PortfolioCore.NormalizeDescription | core/portfolio_core.py:21-23 | a string description `s` becomes `[s]`; a list, absent or other description and every other field are unchanged |
| PortfolioCore.NormalizeEntries | core/portfolio_core.py:21-23 | the loop succeeds exactly when every entry is an object; on success it keeps length and order and normalises each entry's description |
| PortfolioCore.NormalizeProjects | core/portfolio_core.py:26-29 | a list of objects is normalised entry by entry with length and order kept; `""` and `{}` pass through; any other value fails |
| PortfolioCore.WriteBack | core/portfolio_core.py:23 | normalising in place changes only the iterated list's key, which then holds the normalised entries if it was a list; the key set is kept |
| PortfolioCore.AssembleContext | core/portfolio_core.py:32-36 | the context has the record's keys plus `full_experience` (the merged list) and `projects`; the chosen work list shows the first entries of the merged list as the loop left them and `internships` the rest; every other key is unchanged |
| PortfolioCore.BuildContext | core/portfolio_core.py:12-36 | the context exists exactly when every merged entry is an object and `projects` is iterable; it has the record's keys plus `full_experience` (the normalised merged entries) and `projects` (the normalised projects) |
| PortfolioCore.GeneratePortfolio | core/portfolio_core.py:8-42 | a page comes out only for an object record with a buildable context and a known template, and it is that template's render of the built context; the template defaults to `modern.html` |
| PortfolioProperties.NormalizeDescriptionIdempotent | core/portfolio_core.py:21-23 | normalising an entry twice equals normalising it once |
| PortfolioProperties.NormalizedEntryHasNoStringDescription | core/portfolio_core.py:21-23 | after normalisation no entry has a string description |
| PortfolioProperties.NormalizeDescriptionFixesNormal | core/portfolio_core.py:21-23 | an entry without a string description is left unchanged |
| PortfolioProperties.NormalizeEntriesIdempotent | core/portfolio_core.py:21-23 | normalising a list of entries is idempotent |
| PortfolioProperties.NormalizeEntriesFixesNormal | core/portfolio_core.py:21-23 | a list with no string descriptions comes back unchanged |
| PortfolioProperties.NormalizeEntriesAppend | core/portfolio_core.py:16-23 | normalising a concatenation equals concatenating the normalised parts; it fails exactly when a part fails |
| PortfolioProperties.TruthyWorkExperienceSuppressesExperience | core/portfolio_core.py:12-18 | a truthy `work_experience` excludes `experience`; if it is not a list, only internships are merged |
| PortfolioProperties.FullExperienceIsWorkThenInternships | core/portfolio_core.py:16-23 | `full_experience` is the normalised work entries followed by the normalised internship entries, each in original order |
| PortfolioProperties.ContextAtKey | core/portfolio_core.py:21-36 | one record key in the context: the chosen work list and `internships`, when lists, carry their normalised entries; any other key is unchanged |
| PortfolioProperties.ContextKeepsOtherKeys | core/portfolio_core.py:32-36 | every record key except `full_experience`, `projects`, the chosen work list and `internships` reaches the template unchanged |
| PortfolioProperties.ContextNormalisesIteratedLists | core/portfolio_core.py:21-23 | the chosen work list and `internships`, when lists, reach the template with their entries normalised; when not lists, unchanged |
| PortfolioProperties.ContextKeepsNormalRecord | core/portfolio_core.py:32-36 | with no string descriptions to normalise, every key except `full_experience` and `projects` is unchanged |
| PortfolioProperties.ContextIsCanonical | core/portfolio_core.py:20-36 | every built context has a `full_experience` list and a `projects` value free of string descriptions |
| PortfolioProperties.RecordWithoutSectionsGetsEmptyLists | core/portfolio_core.py:12-36 | with no experience, internship or project keys the context is the record plus `full_experience == []` and `projects == []` |
| PortfolioProperties.EmptyRecordContext | core/portfolio_core.py:12-36 | `{}` gives `{"full_experience": [], "projects": []}` |
| PortfolioProperties.ExperienceScenario | core/portfolio_core.py:12-36 | `{"experience": [{"description": "Built X"}], "projects": []}` gives `full_experience == [{"description": ["Built X"]}]` and `projects == []` |
| PortfolioProperties.MalformedEntryFails | core/portfolio_core.py:21-22 | a non-object entry in the merged experience makes the generator return `None` |
| PortfolioProperties.UnknownTemplateFails | core/portfolio_core.py:38-42 | an unknown template name makes the generator return `None` |
| Text.Strip | routers/interview.py:56 | the stripped text is the slice of the input between its leading and trailing whitespace runs; it is empty exactly when the input is all whitespace, and otherwise starts and ends with a non-space |
| Text.Take | routers/portfolio.py:30 | the result is the prefix of the text of length `n`, or the whole text when it is shorter |
| Text.StripTrailing | routers/portfolio.py:60 | the result is a prefix of the text, the dropped tail consists only of the character, and the result does not end with it |
| Text.Lower | routers/portfolio.py:19 | the length is kept, no upper-case ASCII letter remains, and every other character is unchanged |
| PortfolioRouter.LastIndexOf | routers/portfolio.py:19 | the result is the last index holding the character, or -1 when there is none |
| PortfolioRouter.SplitExt | routers/portfolio.py:19 | root plus extension is the path; the extension is empty exactly when no dot starts one (leading dots of the last component do not) |
| PortfolioRouter.FileExtension | routers/portfolio.py:19 | the extension is empty or starts with `.`, has no upper-case ASCII letter or `/`, and is the lower-cased tail of the file name |
| PortfolioRouter.FallbackSummary | routers/portfolio.py:30 | the summary has at most 800 characters; it is a prefix of the stripped raw text, `""` for missing or blank text, and starts with a non-space |
| PortfolioRouter.FallbackRecord | routers/portfolio.py:31-38 | the fallback has exactly the keys `personal_info`, `summary` and four empty sections; `personal_info` is `{name: "Candidate", email: "", phone: ""}` |
| PortfolioRouter.RecordForGenerator | routers/portfolio.py:27-38 | truthy structured data is passed on unchanged; falsy data is replaced by the fallback; the result is always truthy |
| PortfolioRouter.PortfolioFileName | routers/portfolio.py:51-52 | a generated page is named `portfolio_` + the 8-digit id + `.html` |
| PortfolioRouter.EditedFileName | routers/portfolio.py:71-72 | an edited page is named `portfolio_edited_` + the 8-digit id + `.html` |
| PortfolioRouter.PortfolioIdOf | routers/portfolio.py:51-52 | a name that parses gives back an id whose file name is that name |
| PortfolioRouter.PortfolioFileNameRoundTrip | routers/portfolio.py:51-52 | the id can be read back from a generated name, so distinct ids give distinct names |
| PortfolioRouter.GeneratedAndEditedNamesDiffer | routers/portfolio.py:52 | a generated page and an edited page never share a name |
| PortfolioRouter.PublicUrl | routers/portfolio.py:60-61 | the URL ends with `/generated_portfolios/` + the file name; before that comes the base URL with its trailing slashes removed |
| PortfolioRouter.PublicUrlIgnoresTrailingSlash | routers/portfolio.py:60 | an extra trailing `/` on the base URL does not change the URL |
| PortfolioRouter.GenerateDirect | routers/portfolio.py:21-61 | an AI failure, a missing page, an empty page or a failed write of the page is a 500; otherwise the response holds the generated page and its public URL |
| PortfolioRouter.SaveEdited | routers/portfolio.py:64-83 | a 400 exactly when `html` is not a non-empty string; a 500 exactly when the write fails; otherwise the posted page with its public URL |
| PortfolioRouter.FallbackRecordNormalises | routers/portfolio.py:27-45 | the fallback record always builds a context, with empty `full_experience` and `projects` |
| PortfolioRouter.FallbackPublishesTemplate | routers/portfolio.py:27-61 | with falsy structured data and a known template, the response is that template's render of the fallback context, or a 500 when the render is missing or empty or the write fails |
| InterviewRouter.ProctoringDataWithDefaults | routers/interview.py:28-33 | omitted counters are 0 and an omitted termination reason is `None`; given fields are kept |
| InterviewRouter.HistoryDicts | routers/interview.py:60 | the history becomes a list of `{role, content}` dicts with length and order kept |
| InterviewRouter.ProctoringDict | routers/interview.py:93 | the proctoring data passed on is null exactly when it is absent; otherwise a dict of its five fields |
| InterviewRouter.BlankTextIsAllSpace | routers/interview.py:56 | a job description is refused exactly when every character of it is whitespace |
| InterviewRouter.HasReply | routers/interview.py:63 | a value that has a `reply` is truthy and is a dict, a string of at least five characters, or a list |
| InterviewRouter.ConductInterviewChat | routers/interview.py:55-65 | a blank job description is a 400; otherwise the AI gets the description, the history dicts and the difficulty, and a falsy or reply-less answer is a 500 |
| InterviewRouter.AnalyzeVideoAnswer | routers/interview.py:68-81 | the AI gets the uploaded audio bytes, the question and the job description; a falsy feedback is a 500, otherwise that feedback is returned |
| InterviewRouter.AnalyzeVideoAnswerSeesAudio | routers/interview.py:74-80 | the uploaded audio bytes reach the AI: two different recordings can get different responses |
| InterviewRouter.SummarizeInterview | routers/interview.py:84-104 | a 400 exactly when the history is empty and no non-empty termination reason is given; otherwise a falsy AI summary is a 500 and a truthy one is returned |
| InterviewRouter.DefaultProctoringRejectsEmptyHistory | routers/interview.py:28-33 | an empty interview whose proctoring data has all default fields is refused with 400 |
| InterviewRouter.NonEmptyHistoryIsNeverBadRequest | routers/interview.py:88 | a non-empty history is never refused with 400, whatever the proctoring data |
| InterviewRouter.ProctoringPassedOnIsNullIffAbsent | routers/interview.py:93-99 | for an accepted request, the call sent to the AI carries null proctoring data exactly when the request has none |

## Left out

- main.py is not part of this model: credential loading, CORS settings, router registration and server start-up are configuration only.
- Template semantics and HTML layout: a template is only a function from the context to a page or to a failure.
- The AI, text-extraction and speech functions of `core.ai_core` are not part of this model. Their results are inputs: `AiOutcome` for `generate-direct`, and functions of the call arguments for the interview endpoints.
- The extension is computed only to be passed to the text extractor, so `GenerateDirect` takes the extraction outcome as an input. `FileExtension` models the computation separately.
- Authentication, reading the uploaded file, creating directories and writing files are left out. For both endpoints, whether the write succeeded is an input (`written`). In `generate-direct` the write is not guarded, so a failure there is the framework's 500.
- Randomness: the uuid id is an input of type `HexId` (8 lower-case hex digits).
- Logging, `async`, and FastAPI/Pydantic request parsing and response-model validation are left out.
- The generator mutates the caller's record in place. The model is functional and returns the same values without that side effect.
- Records are trees, as every decoded JSON value is, so entry dicts shared between two lists are not modelled.
- Object key order is not modelled: an object is a map, so a template cannot see the order in which a record's keys were inserted. The core's own code does not depend on that order.
- JSON numbers are modelled as `real`. Floating-point rounding is not modelled. Python's int `4` and float `4.0` are one value here, though a template renders them as "4" and "4.0". `NaN` and `Infinity`, which `json.loads` accepts and which are truthy, cannot be represented.
- Text.Lower and PortfolioRouter.FileExtension: lower-case ASCII letters only. Python's `str.lower()` also maps non-ASCII capitals.
- PortfolioRouter.SplitExt: models POSIX paths, where `/` is the only separator. Windows paths are not modelled.
- `file.filename` being `None` is not modelled. The handler does not guard against it, so it is an unhandled error.

=== FILE: interview_router.dfy ===
/** The request guards of the mock-interview endpoints `chat`, `video` and
    `summarize`. The AI calls are parameters: each maps exactly what the
    handler passes on to whatever the AI returned. */
module InterviewRouter {
  import opened Wrappers
  import opened JsonValue
  import opened Text

  datatype ChatMessage = ChatMessage(role: string, content: string)

  datatype ChatRequest = ChatRequest(jobDescription: string, chatHistory: seq<ChatMessage>,
                                     difficulty: string)

  /** Proctoring counters reported by the client, and why the interview was
      ended early, if it was. */
  datatype ProctoringData = ProctoringData(
    tabSwitchCount: int,
    phoneDetectionCount: int,
    noPersonWarnings: int,
    multiplePersonWarnings: int,
    terminationReason: Option<string>)

  datatype SummarizeRequest = SummarizeRequest(jobDescription: string, chatHistory: seq<ChatMessage>,
                                               proctoringData: Option<ProctoringData>)

  /** The arguments of the AI calls, as the handlers pass them. */
  datatype ChatCall = ChatCall(jobDescription: string, history: seq<Json>, difficulty: string)
  datatype VideoCall = VideoCall(audio: seq<bv8>, question: string, jobDescription: string)
  datatype SummaryCall = SummaryCall(jobDescription: string, history: seq<Json>, proctoring: Json)

  // ---------------------------------------------------------------------
  // Request models
  // ---------------------------------------------------------------------

  /** The proctoring data of a request that omits some fields: the counters
      default to 0 and the termination reason to `None`. A present field is
      `Some(value)`. */
  function ProctoringDataWithDefaults(tabSwitchCount: Option<int>, phoneDetectionCount: Option<int>,
                                      noPersonWarnings: Option<int>, multiplePersonWarnings: Option<int>,
                                      terminationReason: Option<Option<string>>): (r: ProctoringData)
    ensures tabSwitchCount.None? ==> r.tabSwitchCount == 0
    ensures phoneDetectionCount.None? ==> r.phoneDetectionCount == 0
    ensures noPersonWarnings.None? ==> r.noPersonWarnings == 0
    ensures multiplePersonWarnings.None? ==> r.multiplePersonWarnings == 0
    ensures terminationReason.None? ==> r.terminationReason.None?
    ensures tabSwitchCount.Some? ==> r.tabSwitchCount == tabSwitchCount.value
    ensures phoneDetectionCount.Some? ==> r.phoneDetectionCount == phoneDetectionCount.value
    ensures noPersonWarnings.Some? ==> r.noPersonWarnings == noPersonWarnings.value
    ensures multiplePersonWarnings.Some? ==> r.multiplePersonWarnings == multiplePersonWarnings.value
    ensures terminationReason.Some? ==> r.terminationReason == terminationReason.value
  {
    ProctoringData(
      OrDefault(tabSwitchCount, 0),
      OrDefault(phoneDetectionCount, 0),
      OrDefault(noPersonWarnings, 0),
      OrDefault(multiplePersonWarnings, 0),
      OrDefault(terminationReason, None))
  }

  function OrDefault<T>(o: Option<T>, default: T): T
  {
    if o.Some? then o.value else default
  }

  /** `msg.dict()` of a chat message. */
  function MessageDict(m: ChatMessage): Json
  {
    Obj(map["role" := Str(m.role), "content" := Str(m.content)])
  }

  /** `[msg.dict() for msg in history]`. */
  function HistoryDicts(history: seq<ChatMessage>): (r: seq<Json>)
    ensures |r| == |history|
    ensures forall i :: 0 <= i < |history| ==>
              r[i] == Obj(map["role" := Str(history[i].role), "content" := Str(history[i].content)])
  {
    seq(|history|, i requires 0 <= i < |history| => MessageDict(history[i]))
  }

  /** `proctoring_data.dict() if proctoring_data else None`. */
  function ProctoringDict(p: Option<ProctoringData>): (r: Json)
    ensures r == Null <==> p.None?
    ensures p.Some? ==> (r.Obj? && r.fields.Keys ==
              {"tab_switch_count", "phone_detection_count", "no_person_warnings",
               "multiple_person_warnings", "termination_reason"})
    ensures p.Some? ==> r.fields["tab_switch_count"] == Num(p.value.tabSwitchCount as real)
                        && r.fields["phone_detection_count"] == Num(p.value.phoneDetectionCount as real)
                        && r.fields["no_person_warnings"] == Num(p.value.noPersonWarnings as real)
                        && r.fields["multiple_person_warnings"] == Num(p.value.multiplePersonWarnings as real)
    ensures p.Some? ==> (r.fields["termination_reason"] == Null <==> p.value.terminationReason.None?)
    ensures p.Some? && p.value.terminationReason.Some? ==>
              r.fields["termination_reason"] == Str(p.value.terminationReason.value)
  {
    match p
    case None => Null
    case Some(d) =>
      Obj(map[
        "tab_switch_count" := Num(d.tabSwitchCount as real),
        "phone_detection_count" := Num(d.phoneDetectionCount as real),
        "no_person_warnings" := Num(d.noPersonWarnings as real),
        "multiple_person_warnings" := Num(d.multiplePersonWarnings as real),
        "termination_reason" := if d.terminationReason.Some? then Str(d.terminationReason.value) else Null])
  }

  // ---------------------------------------------------------------------
  // Guards
  // ---------------------------------------------------------------------

  /** `not s or not s.strip()`: the job description is empty or blank. */
  predicate BlankText(s: string)
  {
    s == [] || Strip(s) == []
  }

  /** Blank means every character is whitespace. */
  lemma BlankTextIsAllSpace(s: string)
    ensures BlankText(s) <==> AllSpace(s)
  {
  }

  /** `"reply" in response` for a truthy response: a key of a dict, a
      substring of a string, an element of a list. For any other truthy value
      the test raises, the handler does not catch it and the framework
      answers 500, exactly as for a missing reply. */
  predicate HasReply(response: Json): (b: bool)
    ensures b ==> Truthy(response)
    ensures b ==> response.Obj? || response.Str? || response.Arr?
    ensures b && response.Str? ==> |response.s| >= |"reply"|
  {
    match response
    case Obj(fields) => "reply" in fields
    case Str(s) => Contains(s, "reply")
    case Arr(items) => Str("reply") in items
    case _ => false
  }

  /** `conduct_interview_chat`: 400 for a blank job description; otherwise
      the AI is asked with the description, the history as dicts and the
      difficulty, and its answer is returned when it is truthy and has a
      reply, 500 otherwise. */
  function ConductInterviewChat(request: ChatRequest, ai: ChatCall -> Json): (r: Result<Json>)
    ensures r == Err(BadRequest) <==> AllSpace(request.jobDescription)
    ensures r.Err? ==> r.status == BadRequest || r.status == ServerError
    ensures !AllSpace(request.jobDescription) ==>
              var response := ai(ChatCall(request.jobDescription, HistoryDicts(request.chatHistory),
                                          request.difficulty));
              if Truthy(response) && HasReply(response) then r == Ok(response)
              else r == Err(ServerError)
  {
    BlankTextIsAllSpace(request.jobDescription);
    if BlankText(request.jobDescription) then Err(BadRequest)
    else
      var response := ai(ChatCall(request.jobDescription, HistoryDicts(request.chatHistory),
                                  request.difficulty));
      if !Truthy(response) || !HasReply(response) then Err(ServerError)
      else Ok(response)
  }

  /** `analyze_video_answer`: the AI's feedback on the recorded answer
      (the uploaded bytes, the question and the job description), or 500
      when it is falsy. */
  function AnalyzeVideoAnswer(audio: seq<bv8>, question: string, jobDescription: string,
                              ai: VideoCall -> Json): (r: Result<Json>)
    ensures r.Err? ==> r.status == ServerError
    ensures r.Ok? <==> Truthy(ai(VideoCall(audio, question, jobDescription)))
    ensures r.Ok? ==> r.value == ai(VideoCall(audio, question, jobDescription))
  {
    var feedback := ai(VideoCall(audio, question, jobDescription));
    if !Truthy(feedback) then Err(ServerError) else Ok(feedback)
  }

  /** The uploaded bytes reach the AI: for two different recordings of the
      same question there is an AI (one that only gives feedback on the
      first) under which the handler answers the first and fails the
      second with 500. */
  lemma AnalyzeVideoAnswerSeesAudio(audio1: seq<bv8>, audio2: seq<bv8>,
                                    question: string, jobDescription: string)
    requires audio1 != audio2
    ensures var probe := (call: VideoCall) =>
                           if call.audio == audio1 then Str("feedback") else Null;
      && AnalyzeVideoAnswer(audio1, question, jobDescription, probe) == Ok(Str("feedback"))
      && AnalyzeVideoAnswer(audio2, question, jobDescription, probe) == Err(ServerError)
  {
  }

  /** The interview was ended early for a stated reason:
      `proctoring_data and proctoring_data.termination_reason`. */
  predicate Terminated(p: Option<ProctoringData>)
  {
    p.Some? && p.value.terminationReason.Some? && p.value.terminationReason.value != ""
  }

  /** The arguments `summarize_interview` passes to the AI: the job
      description, the history as dicts and the proctoring data as a dict. */
  function SummaryCallOf(request: SummarizeRequest): SummaryCall
  {
    SummaryCall(request.jobDescription, HistoryDicts(request.chatHistory),
                ProctoringDict(request.proctoringData))
  }

  /** `summarize_interview`: an empty history is only accepted for an
      interview ended with a non-empty termination reason (400 otherwise);
      the AI then gets the description, the history as dicts and the
      proctoring data as a dict, or `None` when there is none, and a falsy
      summary is a 500. */
  function SummarizeInterview(request: SummarizeRequest, ai: SummaryCall -> Json): (r: Result<Json>)
    ensures r == Err(BadRequest) <==> request.chatHistory == [] && !Terminated(request.proctoringData)
    ensures r.Err? ==> r.status == BadRequest || r.status == ServerError
    ensures request.chatHistory != [] || Terminated(request.proctoringData) ==>
              var summary := ai(SummaryCallOf(request));
              if Truthy(summary) then r == Ok(summary) else r == Err(ServerError)
  {
    if request.chatHistory == [] && !Terminated(request.proctoringData) then Err(BadRequest)
    else
      var summary := ai(SummaryCallOf(request));
      if !Truthy(summary) then Err(ServerError) else Ok(summary)
  }

  /** Proctoring data sent with every field at its default does not let an
      empty interview be summarised. */
  lemma DefaultProctoringRejectsEmptyHistory(jobDescription: string, ai: SummaryCall -> Json)
    ensures var defaults := ProctoringDataWithDefaults(None, None, None, None, None);
      SummarizeInterview(SummarizeRequest(jobDescription, [], Some(defaults)), ai) == Err(BadRequest)
  {
  }

  /** Whatever the proctoring data, a non-empty history is never refused as
      a bad request. */
  lemma NonEmptyHistoryIsNeverBadRequest(request: SummarizeRequest, ai: SummaryCall -> Json)
    requires request.chatHistory != []
    ensures SummarizeInterview(request, ai) != Err(BadRequest)
  {
  }

  /** For an accepted request, the call the handler sends to the AI carries
      null proctoring data exactly when the request had none: an AI that
      answers only calls without proctoring data gets a summary out of the
      handler for exactly those requests. */
  lemma ProctoringPassedOnIsNullIffAbsent(request: SummarizeRequest)
    requires request.chatHistory != [] || Terminated(request.proctoringData)
    ensures var probe := (call: SummaryCall) =>
                           if call.proctoring == Null then Str("summary") else Null;
      SummarizeInterview(request, probe).Ok? <==> request.proctoringData.None?
  {
  }
}

=== FILE: json.dfy ===
/** The loosely typed values the backend handles: decoded JSON, as Python
    sees it (`None`, `bool`, numbers, `str`, `list`, `dict`). */
module JsonValue {

  datatype Json =
    | Null
    | Bool(b: bool)
    | Num(n: real)
    | Str(s: string)
    | Arr(items: seq<Json>)
    | Obj(fields: map<string, Json>)

  /** Python truthiness: `None`, `False`, zero, and empty strings, lists and
      dicts are falsy; everything else is truthy. */
  predicate Truthy(j: Json)
  {
    match j
    case Null => false
    case Bool(b) => b
    case Num(n) => n != 0.0
    case Str(s) => s != ""
    case Arr(items) => items != []
    case Obj(fields) => fields != map[]
  }

  /** The empty list `[]`, used as the default of `dict.get`. */
  const EmptyList: Json := Arr([])

  /** `d.get(key, [])` on a dict `d`. */
  function GetOrEmpty(d: map<string, Json>, key: string): (r: Json)
    ensures key in d ==> r == d[key]
    ensures key !in d ==> r == EmptyList
  {
    if key in d then d[key] else EmptyList
  }

  /** The elements a value contributes to `list.extend` guarded by
      `isinstance(v, list)`: its items when it is a list, nothing otherwise. */
  function ListItems(j: Json): (r: seq<Json>)
    ensures j.Arr? ==> r == j.items
    ensures !j.Arr? ==> r == []
  {
    if j.Arr? then j.items else []
  }
}

=== FILE: portfolio_core.dfy ===
/** The portfolio generator: it turns the structured resume record produced
    by the AI step into the context of a page template, then renders that
    template. Every failure along the way, whether a malformed record, an
    unknown template or an error while rendering, yields `None` instead of an
    exception. */
module PortfolioCore {
  import opened Wrappers
  import opened JsonValue

  /** Keys of the record the generator reads or writes. */
  const WorkKey: string := "work_experience"
  const ExperienceKey: string := "experience"
  const InternshipsKey: string := "internships"
  const ProjectsKey: string := "projects"
  const FullExperienceKey: string := "full_experience"
  const DescriptionKey: string := "description"

  /** Template used when the caller names none. */
  const DefaultTemplate: string := "modern.html"

  /** The variables a template is rendered with. */
  type Context = map<string, Json>

  /** The template environment, fixed when the process starts: each template
      name it can load maps to that template's render function, which yields
      `None` when rendering raises. */
  datatype TemplateEnv = TemplateEnv(templates: map<string, Context -> Option<string>>)

  // ---------------------------------------------------------------------
  // Choosing the work-experience source
  // ---------------------------------------------------------------------

  /** The value the experience entries are taken from: `work_experience` when
      it is present and truthy, otherwise `experience`, otherwise `[]`. The
      two sources are never combined. */
  function WorkSource(data: map<string, Json>): (r: Json)
    ensures WorkKey in data && Truthy(data[WorkKey]) ==> r == data[WorkKey]
    ensures (WorkKey !in data || !Truthy(data[WorkKey])) && ExperienceKey in data
            ==> r == data[ExperienceKey]
    ensures (WorkKey !in data || !Truthy(data[WorkKey])) && ExperienceKey !in data
            ==> r == EmptyList
  {
    var work := GetOrEmpty(data, WorkKey);
    if Truthy(work) then work else GetOrEmpty(data, ExperienceKey)
  }

  /** The key of the record whose value `WorkSource` returns, if any. */
  function WorkOrigin(data: map<string, Json>): (k: Option<string>)
    ensures k.Some? ==> k.value in data && data[k.value] == WorkSource(data)
    ensures k.Some? ==> k.value == WorkKey || k.value == ExperienceKey
    ensures k.None? ==> WorkSource(data) == EmptyList
  {
    if Truthy(GetOrEmpty(data, WorkKey)) then Some(WorkKey)
    else if ExperienceKey in data then Some(ExperienceKey)
    else None
  }

  /** The entries the generator iterates over for the experience section:
      the work entries followed by the internship entries, where a source
      that is not a list contributes none. */
  function MergedEntries(data: map<string, Json>): seq<Json>
  {
    ListItems(WorkSource(data)) + ListItems(GetOrEmpty(data, InternshipsKey))
  }

  // ---------------------------------------------------------------------
  // Normalising descriptions
  // ---------------------------------------------------------------------

  /** An entry with a string `description` `s` gets `[s]` instead; nothing
      else in the entry changes. */
  function NormalizeDescription(entry: map<string, Json>): (r: map<string, Json>)
    ensures r.Keys == entry.Keys
    ensures forall k :: k in entry && k != DescriptionKey ==> r[k] == entry[k]
    ensures DescriptionKey in entry && entry[DescriptionKey].Str?
            ==> r[DescriptionKey] == Arr([entry[DescriptionKey]])
    ensures DescriptionKey in entry && !entry[DescriptionKey].Str?
            ==> r[DescriptionKey] == entry[DescriptionKey]
  {
    if DescriptionKey in entry && entry[DescriptionKey].Str?
    then entry[DescriptionKey := Arr([entry[DescriptionKey]])]
    else entry
  }

  /** An entry whose description is not a single string. */
  predicate HasNormalDescription(entry: Json)
  {
    entry.Obj? && !(DescriptionKey in entry.fields && entry.fields[DescriptionKey].Str?)
  }

  /** Every element is an object (a Python dict). */
  predicate AllObjects(items: seq<Json>)
  {
    forall i :: 0 <= i < |items| ==> items[i].Obj?
  }

  /** The loop that normalises the description of every entry of a list.
      Looking up `description` in an entry that is not a dict raises, so the
      whole list fails as soon as one entry is not an object. */
  function NormalizeEntries(items: seq<Json>): (r: Option<seq<Json>>)
    ensures r.Some? <==> AllObjects(items)
    ensures r.Some? ==> |r.value| == |items|
    ensures r.Some? ==> forall i :: 0 <= i < |items| ==>
              r.value[i] == Obj(NormalizeDescription(items[i].fields))
  {
    if |items| == 0 then Some([])
    else if !items[0].Obj? then None
    else
      match NormalizeEntries(items[1..])
      case None => None
      case Some(rest) => Some([Obj(NormalizeDescription(items[0].fields))] + rest)
  }

  /** The values `projects` may hold without making the generator fail. */
  predicate ProjectsIterable(projects: Json)
  {
    || (projects.Arr? && AllObjects(projects.items))
    || projects == Str("")
    || projects == Obj(map[])
  }

  /** The `projects` loop: a list of objects is normalised entry by entry.
      Iterating an empty string or an empty dict does nothing, so those pass
      through unchanged; any other value fails, either because iterating it
      raises (`None`, booleans, numbers) or because it yields a string on
      which the description lookup raises (non-empty strings and dicts). */
  function NormalizeProjects(projects: Json): (r: Option<Json>)
    ensures r.Some? <==> ProjectsIterable(projects)
    ensures projects.Arr? && r.Some? ==>
              && r.value.Arr? && |r.value.items| == |projects.items|
              && forall i :: 0 <= i < |projects.items| ==>
                   r.value.items[i] == Obj(NormalizeDescription(projects.items[i].fields))
    ensures projects == Str("") || projects == Obj(map[]) ==> r == Some(projects)
  {
    match projects
    case Arr(items) =>
      (match NormalizeEntries(items)
       case None => None
       case Some(normalized) => Some(Arr(normalized)))
    case Str(s) => if s == "" then Some(projects) else None
    case Obj(fields) => if fields == map[] then Some(projects) else None
    case _ => None
  }

  // ---------------------------------------------------------------------
  // Assembling the context
  // ---------------------------------------------------------------------

  /** The entries are normalised in place, so a list of the record that was
      iterated shows its normalised entries in the context too. */
  function WriteBack(ctx: Context, key: Option<string>, entries: seq<Json>): (r: Context)
    ensures r.Keys == ctx.Keys
    ensures forall k :: k in ctx && Some(k) != key ==> r[k] == ctx[k]
    ensures key.Some? && key.value in ctx
            ==> r[key.value] == if ctx[key.value].Arr? then Arr(entries) else ctx[key.value]
  {
    if key.Some? && key.value in ctx && ctx[key.value].Arr?
    then ctx[key.value := Arr(entries)]
    else ctx
  }

  /** The context assembled from the record once the loops are done: the
      record spread out, `full_experience` and `projects` overridden, and the
      iterated lists (the chosen work list and `internships`, when they are
      lists) showing their entries as the loop left them, since the loop
      changed those very entry objects. `full` is the merged list after the
      loop; its first `n` entries came from the work list, the rest from
      `internships`. */
  function AssembleContext(data: map<string, Json>, full: seq<Json>, n: nat,
                           projects: Json): (ctx: Context)
    requires n <= |full|
    ensures ctx.Keys == data.Keys + {FullExperienceKey, ProjectsKey}
    ensures ctx[FullExperienceKey] == Arr(full) && ctx[ProjectsKey] == projects
    ensures forall k :: k in data && k != FullExperienceKey && k != ProjectsKey
                        && Some(k) != WorkOrigin(data) && k != InternshipsKey
                        ==> ctx[k] == data[k]
    ensures WorkOrigin(data).Some? ==>
              ctx[WorkOrigin(data).value]
              == (if data[WorkOrigin(data).value].Arr? then Arr(full[..n]) else data[WorkOrigin(data).value])
    ensures InternshipsKey in data ==>
              ctx[InternshipsKey] == (if data[InternshipsKey].Arr? then Arr(full[n..]) else data[InternshipsKey])
  {
    var withWork := WriteBack(data, WorkOrigin(data), full[..n]);
    var withInterns := WriteBack(withWork, Some(InternshipsKey), full[n..]);
    withInterns[FullExperienceKey := Arr(full)][ProjectsKey := projects]
  }

  /** The template context built from a record: the record's own keys, with
      `full_experience` set to the normalised merged entries and `projects`
      to the normalised projects. `None` when the generator raises. */
  function BuildContext(data: map<string, Json>): (r: Option<Context>)
    ensures r.Some? <==>
              && AllObjects(MergedEntries(data))
              && ProjectsIterable(GetOrEmpty(data, ProjectsKey))
    ensures r.Some? ==> r.value.Keys == data.Keys + {FullExperienceKey, ProjectsKey}
    ensures r.Some? ==> r.value[FullExperienceKey] == Arr(NormalizeEntries(MergedEntries(data)).value)
    ensures r.Some? ==> Some(r.value[ProjectsKey]) == NormalizeProjects(GetOrEmpty(data, ProjectsKey))
  {
    var merged := MergedEntries(data);
    match NormalizeEntries(merged)
    case None => None
    case Some(full) =>
      match NormalizeProjects(GetOrEmpty(data, ProjectsKey))
      case None => None
      case Some(projects) =>
        Some(AssembleContext(data, full, |ListItems(WorkSource(data))|, projects))
  }

  // ---------------------------------------------------------------------
  // Rendering
  // ---------------------------------------------------------------------

  /** `generate_portfolio_website`: the rendered page, or `None` on any
      failure. A record that is not a dict fails at its first lookup; a
      template name the environment does not know fails to load. */
  function GeneratePortfolio(env: TemplateEnv, structured: Json,
                             templateName: string := DefaultTemplate): (r: Option<string>)
    ensures r.Some? ==> structured.Obj? && BuildContext(structured.fields).Some?
    ensures r.Some? ==> templateName in env.templates
    ensures structured.Obj? && BuildContext(structured.fields).Some? && templateName in env.templates
            ==> r == env.templates[templateName](BuildContext(structured.fields).value)
  {
    if !structured.Obj? then None
    else
      match BuildContext(structured.fields)
      case None => None
      case Some(ctx) =>
        if templateName in env.templates then env.templates[templateName](ctx) else None
  }
}

=== FILE: portfolio_properties.dfy ===
/** Properties of the portfolio generator: which source the experience comes
    from, order and length preservation, idempotence of the description
    normalisation, which keys of the record reach the template unchanged, and
    when the generator fails. */
module PortfolioProperties {
  import opened Wrappers
  import opened JsonValue
  import opened PortfolioCore

  /** Normalising an entry twice is the same as normalising it once. */
  lemma NormalizeDescriptionIdempotent(entry: map<string, Json>)
    ensures NormalizeDescription(NormalizeDescription(entry)) == NormalizeDescription(entry)
  {
  }

  /** After normalisation no entry has a string description. */
  lemma NormalizedEntryHasNoStringDescription(entry: map<string, Json>)
    ensures HasNormalDescription(Obj(NormalizeDescription(entry)))
  {
  }

  /** An entry that already has no string description is left exactly as it
      was. */
  lemma NormalizeDescriptionFixesNormal(entry: map<string, Json>)
    requires HasNormalDescription(Obj(entry))
    ensures NormalizeDescription(entry) == entry
  {
  }

  /** Normalising a list of entries is idempotent. */
  lemma {:induction false} NormalizeEntriesIdempotent(items: seq<Json>)
    requires NormalizeEntries(items).Some?
    ensures NormalizeEntries(NormalizeEntries(items).value) == NormalizeEntries(items)
  {
    var once := NormalizeEntries(items).value;
    forall i | 0 <= i < |once|
      ensures once[i].Obj? && NormalizeDescription(once[i].fields) == once[i].fields
    {
      NormalizeDescriptionIdempotent(items[i].fields);
    }
    var twice := NormalizeEntries(once).value;
    assert twice == once;
  }

  /** A list whose entries all have a non-string description comes back
      unchanged. */
  lemma {:induction false} NormalizeEntriesFixesNormal(items: seq<Json>)
    requires forall i :: 0 <= i < |items| ==> HasNormalDescription(items[i])
    ensures NormalizeEntries(items) == Some(items)
  {
    assert AllObjects(items);
    var once := NormalizeEntries(items).value;
    forall i | 0 <= i < |items| ensures once[i] == items[i] {
      NormalizeDescriptionFixesNormal(items[i].fields);
    }
    assert once == items;
  }

  /** A concatenation holds only objects exactly when both parts do. */
  lemma AllObjectsAppend(a: seq<Json>, b: seq<Json>)
    ensures AllObjects(a + b) <==> AllObjects(a) && AllObjects(b)
  {
    var ab := a + b;
    if AllObjects(ab) {
      forall i | 0 <= i < |a| ensures a[i].Obj? { assert a[i] == ab[i]; }
      forall i | 0 <= i < |b| ensures b[i].Obj? { assert b[i] == ab[|a| + i]; }
    }
    if AllObjects(a) && AllObjects(b) {
      forall i | 0 <= i < |ab| ensures ab[i].Obj? {
        if i >= |a| { assert ab[i] == b[i - |a|]; }
      }
    }
  }

  /** Normalising a concatenation normalises each part and keeps them in
      order; it fails exactly when one of the parts fails. */
  lemma NormalizeEntriesAppend(a: seq<Json>, b: seq<Json>)
    ensures NormalizeEntries(a + b).Some? <==> NormalizeEntries(a).Some? && NormalizeEntries(b).Some?
    ensures NormalizeEntries(a + b).Some? ==>
              NormalizeEntries(a + b).value == NormalizeEntries(a).value + NormalizeEntries(b).value
  {
    AllObjectsAppend(a, b);
    if AllObjects(a) && AllObjects(b) {
      var ab := a + b;
      var whole := NormalizeEntries(ab).value;
      var front := NormalizeEntries(a).value;
      var back := NormalizeEntries(b).value;
      forall i | 0 <= i < |ab| ensures whole[i] == (front + back)[i] {
        if i < |a| {
          assert ab[i] == a[i];
        } else {
          assert ab[i] == b[i - |a|];
        }
      }
      assert whole == front + back;
    }
  }


  /** `work_experience` wins whenever it is truthy, even when it is not a
      list: then `experience` is ignored and only internships are merged. */
  lemma TruthyWorkExperienceSuppressesExperience(data: map<string, Json>)
    requires WorkKey in data && Truthy(data[WorkKey])
    ensures MergedEntries(data) == ListItems(data[WorkKey]) + ListItems(GetOrEmpty(data, InternshipsKey))
    ensures !data[WorkKey].Arr? ==> MergedEntries(data) == ListItems(GetOrEmpty(data, InternshipsKey))
  {
  }

  /** `full_experience` is the normalised work entries followed by the
      normalised internship entries, each in their original order. */
  lemma FullExperienceIsWorkThenInternships(data: map<string, Json>)
    requires BuildContext(data).Some?
    ensures var work := ListItems(WorkSource(data));
            var interns := ListItems(GetOrEmpty(data, InternshipsKey));
            && NormalizeEntries(work).Some? && NormalizeEntries(interns).Some?
            && BuildContext(data).value[FullExperienceKey]
               == Arr(NormalizeEntries(work).value + NormalizeEntries(interns).value)
  {
    NormalizeEntriesAppend(ListItems(WorkSource(data)), ListItems(GetOrEmpty(data, InternshipsKey)));
  }

  /** What one key of the record becomes in the context: the chosen work
      list and `internships`, when they are lists, show their entries
      normalised, because the generator normalises those very entry objects
      in place; every other key reaches the template unchanged. */
  lemma ContextAtKey(data: map<string, Json>, k: string)
    requires BuildContext(data).Some?
    requires k in data && k != FullExperienceKey && k != ProjectsKey
    ensures var ctx := BuildContext(data).value;
      if (Some(k) == WorkOrigin(data) || k == InternshipsKey) && data[k].Arr?
      then NormalizeEntries(data[k].items).Some?
           && ctx[k] == Arr(NormalizeEntries(data[k].items).value)
      else ctx[k] == data[k]
  {
    var work := ListItems(WorkSource(data));
    var interns := ListItems(GetOrEmpty(data, InternshipsKey));
    NormalizeEntriesAppend(work, interns);
    var full := NormalizeEntries(work + interns).value;
    assert full[..|work|] == NormalizeEntries(work).value;
    assert full[|work|..] == NormalizeEntries(interns).value;
    if k == InternshipsKey && data[k].Arr? {
      assert data[k].items == interns;
    } else if Some(k) == WorkOrigin(data) && data[k].Arr? {
      assert data[k].items == work;
    }
  }

  /** Every key of the record other than `full_experience`, `projects`, the
      chosen work list and `internships` reaches the template unchanged. */
  lemma ContextKeepsOtherKeys(data: map<string, Json>)
    requires BuildContext(data).Some?
    ensures var ctx := BuildContext(data).value;
      forall k :: k in data && k != FullExperienceKey && k != ProjectsKey
                  && Some(k) != WorkOrigin(data) && k != InternshipsKey
                  ==> ctx[k] == data[k]
  {
    forall k | k in data && k != FullExperienceKey && k != ProjectsKey
               && Some(k) != WorkOrigin(data) && k != InternshipsKey
      ensures BuildContext(data).value[k] == data[k]
    {
      ContextAtKey(data, k);
    }
  }

  /** The chosen work list and `internships`, when they are lists, reach the
      template with their entries normalised; when they are not lists they
      are unchanged. */
  lemma ContextNormalisesIteratedLists(data: map<string, Json>)
    requires BuildContext(data).Some?
    ensures var ctx := BuildContext(data).value;
      forall k :: k in data && k != FullExperienceKey && k != ProjectsKey
                  && (Some(k) == WorkOrigin(data) || k == InternshipsKey)
                  ==> if data[k].Arr?
                      then NormalizeEntries(data[k].items).Some?
                           && ctx[k] == Arr(NormalizeEntries(data[k].items).value)
                      else ctx[k] == data[k]
  {
    forall k | k in data && k != FullExperienceKey && k != ProjectsKey
               && (Some(k) == WorkOrigin(data) || k == InternshipsKey)
      ensures var ctx := BuildContext(data).value;
              if data[k].Arr?
              then NormalizeEntries(data[k].items).Some?
                   && ctx[k] == Arr(NormalizeEntries(data[k].items).value)
              else ctx[k] == data[k]
    {
      ContextAtKey(data, k);
    }
  }

  /** Both parts of a list of entries without string descriptions are such
      lists too. */
  lemma NormalPartsOfNormal(a: seq<Json>, b: seq<Json>)
    requires forall i :: 0 <= i < |a + b| ==> HasNormalDescription((a + b)[i])
    ensures forall i :: 0 <= i < |a| ==> HasNormalDescription(a[i])
    ensures forall i :: 0 <= i < |b| ==> HasNormalDescription(b[i])
  {
    forall i | 0 <= i < |a| ensures HasNormalDescription(a[i]) {
      assert a[i] == (a + b)[i];
    }
    forall i | 0 <= i < |b| ensures HasNormalDescription(b[i]) {
      assert b[i] == (a + b)[|a| + i];
    }
  }

  /** When no merged entry has a string description, every key of the record
      other than `full_experience` and `projects` reaches the template
      unchanged. */
  lemma ContextKeepsNormalRecord(data: map<string, Json>)
    requires BuildContext(data).Some?
    requires forall i :: 0 <= i < |MergedEntries(data)| ==> HasNormalDescription(MergedEntries(data)[i])
    ensures forall k :: k in data && k != FullExperienceKey && k != ProjectsKey
                        ==> BuildContext(data).value[k] == data[k]
  {
    var work := ListItems(WorkSource(data));
    var interns := ListItems(GetOrEmpty(data, InternshipsKey));
    assert MergedEntries(data) == work + interns;
    NormalPartsOfNormal(work, interns);
    NormalizeEntriesFixesNormal(work);
    NormalizeEntriesFixesNormal(interns);
    forall k | k in data && k != FullExperienceKey && k != ProjectsKey
      ensures BuildContext(data).value[k] == data[k]
    {
      ContextAtKey(data, k);
      if k == InternshipsKey && data[k].Arr? {
        assert data[k].items == interns;
      } else if Some(k) == WorkOrigin(data) && data[k].Arr? {
        assert data[k].items == work;
      }
    }
  }

  /** The shape the template can rely on: `full_experience` is a list of
      objects none of which has a string description, and `projects` is
      such a list too, or an empty string or empty dict carried over. */
  predicate Canonical(ctx: Context)
  {
    && FullExperienceKey in ctx && ProjectsKey in ctx
    && ctx[FullExperienceKey].Arr?
    && (forall i :: 0 <= i < |ctx[FullExperienceKey].items| ==>
          HasNormalDescription(ctx[FullExperienceKey].items[i]))
    && (|| (ctx[ProjectsKey].Arr? &&
            forall i :: 0 <= i < |ctx[ProjectsKey].items| ==> HasNormalDescription(ctx[ProjectsKey].items[i]))
        || ctx[ProjectsKey] == Str("")
        || ctx[ProjectsKey] == Obj(map[]))
  }

  /** Every context the generator builds is canonical. */
  lemma ContextIsCanonical(data: map<string, Json>)
    requires BuildContext(data).Some?
    ensures Canonical(BuildContext(data).value)
  {
  }

  /** A record without experience, internship or project keys gets an empty
      `full_experience` and an empty `projects`, and nothing else changes. */
  lemma RecordWithoutSectionsGetsEmptyLists(data: map<string, Json>)
    requires WorkKey !in data && ExperienceKey !in data
    requires InternshipsKey !in data && ProjectsKey !in data
    ensures BuildContext(data) == Some(data[FullExperienceKey := EmptyList][ProjectsKey := EmptyList])
  {
  }

  /** The empty record: `{}` becomes `{"full_experience": [], "projects": []}`. */
  lemma EmptyRecordContext()
    ensures BuildContext(map[]) == Some(map[FullExperienceKey := EmptyList, ProjectsKey := EmptyList])
  {
  }

  /** `{"experience": [{"description": "Built X"}], "projects": []}` gives
      `full_experience == [{"description": ["Built X"]}]` and `projects == []`,
      and the `experience` list itself shows the normalised entry. */
  lemma ExperienceScenario()
    ensures var entry := Obj(map[DescriptionKey := Str("Built X")]);
            var normal := Obj(map[DescriptionKey := Arr([Str("Built X")])]);
            var data := map[ExperienceKey := Arr([entry]), ProjectsKey := EmptyList];
            BuildContext(data) == Some(map[ExperienceKey := Arr([normal]), ProjectsKey := EmptyList,
                                           FullExperienceKey := Arr([normal])])
  {
    var entry := Obj(map[DescriptionKey := Str("Built X")]);
    var normal := Obj(map[DescriptionKey := Arr([Str("Built X")])]);
    var data := map[ExperienceKey := Arr([entry]), ProjectsKey := EmptyList];
    var once := NormalizeEntries([entry]);
    assert once.Some? && |once.value| == 1 && once.value[0] == normal;
    assert once.value == [normal];
    var withWork := WriteBack(data, WorkOrigin(data), [normal]);
    var ctx := withWork[FullExperienceKey := Arr([normal])][ProjectsKey := EmptyList];
    var expected := map[ExperienceKey := Arr([normal]), ProjectsKey := EmptyList,
                        FullExperienceKey := Arr([normal])];
    assert ctx == expected;
  }

  /** A stray non-object entry in the merged experience makes the generator
      fail, whatever the template. */
  lemma MalformedEntryFails(env: TemplateEnv, data: map<string, Json>, name: string, i: nat)
    requires i < |MergedEntries(data)| && !MergedEntries(data)[i].Obj?
    ensures GeneratePortfolio(env, Obj(data), name) == None
  {
  }

  /** An unknown template name makes the generator fail. */
  lemma UnknownTemplateFails(env: TemplateEnv, structured: Json, name: string)
    requires name !in env.templates
    ensures GeneratePortfolio(env, structured, name) == None
  {
  }
}

=== FILE: portfolio_router.dfy ===
/** The decisions of the portfolio endpoints `generate-direct` and
    `save-edited` that do not depend on I/O: the extension handed to the text
    extractor, the fallback record used when the AI step returns nothing,
    the rejection of an empty page, the file names, the public URL, and the
    validation of an edited page. */
module PortfolioRouter {
  import opened Wrappers
  import opened JsonValue
  import opened Text
  import opened PortfolioCore

  // ---------------------------------------------------------------------
  // File extension (os.path.splitext on a POSIX system, then lower())
  // ---------------------------------------------------------------------

  /** Index of the last occurrence of `c` in `s`, or -1 (`str.rfind`). */
  function LastIndexOf(s: string, c: char): (r: int)
    ensures -1 <= r < |s|
    ensures r >= 0 ==> s[r] == c
    ensures forall j :: r < j < |s| ==> s[j] != c
  {
    if |s| == 0 then -1
    else if s[|s| - 1] == c then |s| - 1
    else LastIndexOf(s[..|s| - 1], c)
  }

  /** `k` is where the extension of the path `p` starts: a dot after which
      there is neither a dot nor a `/`, and before which the last path
      component has something other than dots (so `.bashrc` and `..` have no
      extension). */
  predicate ExtensionStart(p: string, k: int)
  {
    && 0 <= k < |p| && p[k] == '.'
    && (forall j :: k < j < |p| ==> p[j] != '.' && p[j] != '/')
    && HasStem(p[..k])
  }

  /** The text before an extension dot ends in a path component that is not
      made of dots only. */
  predicate HasStem(prefix: string)
  {
    var stem := StripTrailing(prefix, '.');
    stem != [] && stem[|stem| - 1] != '/'
  }

  /** Only the last dot, and only one after the last separator, can start
      an extension. */
  lemma ExtensionStartIsLastDot(p: string, k: int)
    ensures ExtensionStart(p, k) ==>
              k == LastIndexOf(p, '.') && LastIndexOf(p, '/') < k
  {
  }

  /** A last path component made of dots only up to the dot has no stem. */
  lemma DotsOnlyHaveNoStem(p: string, sep: int, dot: int)
    requires -1 <= sep < dot < |p|
    requires sep >= 0 ==> p[sep] == '/'
    requires forall j :: sep < j < dot ==> p[j] == '.'
    ensures !HasStem(p[..dot])
  {
    var stem := StripTrailing(p[..dot], '.');
    assert |stem| == sep + 1;
  }

  /** A character other than a dot between the last separator and the dot
      gives the text before the dot a stem. */
  lemma NonDotGivesStem(p: string, sep: int, dot: int, f: int)
    requires -1 <= sep < f < dot < |p|
    requires p[f] != '.'
    requires forall j :: sep < j < |p| ==> p[j] != '/'
    ensures HasStem(p[..dot])
  {
    var stem := StripTrailing(p[..dot], '.');
    assert p[..dot][f] == p[f];
    assert |stem| > f;
  }

  /** `os.path.splitext(p)`: splits `p` into a root and an extension that is
      either empty or starts at an `ExtensionStart` position. */
  method SplitExt(p: string) returns (root: string, ext: string)
    ensures root + ext == p
    ensures ext != [] ==> ExtensionStart(p, |root|)
    ensures ext == [] ==> forall k :: 0 <= k < |p| ==> !ExtensionStart(p, k)
  {
    var sepIndex := LastIndexOf(p, '/');
    var dotIndex := LastIndexOf(p, '.');
    if dotIndex > sepIndex {
      var filenameIndex := sepIndex + 1;
      while filenameIndex < dotIndex
        invariant sepIndex + 1 <= filenameIndex <= dotIndex
        invariant forall j :: sepIndex + 1 <= j < filenameIndex ==> p[j] == '.'
      {
        if p[filenameIndex] != '.' {
          NonDotGivesStem(p, sepIndex, dotIndex, filenameIndex);
          return p[..dotIndex], p[dotIndex..];
        }
        filenameIndex := filenameIndex + 1;
      }
      DotsOnlyHaveNoStem(p, sepIndex, dotIndex);
    }
    forall k | 0 <= k < |p| ensures !ExtensionStart(p, k) {
      ExtensionStartIsLastDot(p, k);
    }
    return p, [];
  }


  /** The extension `generate-direct` passes to the text extractor:
      `os.path.splitext(filename)[1].lower()`. */
  method FileExtension(filename: string) returns (ext: string)
    ensures ext == [] || ext[0] == '.'
    ensures forall i :: 0 <= i < |ext| ==> !IsUpper(ext[i]) && ext[i] != '/'
    ensures |ext| <= |filename|
    ensures ext != [] ==> ext == Lower(filename[|filename| - |ext|..])
                          && ExtensionStart(filename, |filename| - |ext|)
    ensures ext == [] ==> forall k :: 0 <= k < |filename| ==> !ExtensionStart(filename, k)
  {
    var root, suffix := SplitExt(filename);
    assert filename[|root|..] == suffix;
    ext := Lower(suffix);
  }

  // ---------------------------------------------------------------------
  // Fallback record
  // ---------------------------------------------------------------------

  /** Longest summary the fallback record carries. */
  const SummaryLimit: nat := 800

  /** `(raw_text or "").strip()[:800]`. */
  function FallbackSummary(rawText: Option<string>): (r: string)
    ensures |r| <= SummaryLimit
    ensures rawText.None? ==> r == ""
    ensures rawText.Some? ==> |r| <= |Strip(rawText.value)| && r == Strip(rawText.value)[..|r|]
    ensures rawText.Some? ==> |r| == SummaryLimit || r == Strip(rawText.value)
    ensures r == [] || (!IsSpace(r[0]))
    ensures rawText.Some? ==> (r == [] <==> AllSpace(rawText.value))
  {
    match rawText
    case None => ""
    case Some(text) => Take(Strip(text), SummaryLimit)
  }

  /** The record used when the AI step returns falsy structured data: a
      placeholder identity, the summary, and empty sections. */
  function FallbackRecord(rawText: Option<string>): (r: Json)
    ensures r.Obj?
    ensures r.fields.Keys == {"personal_info", "summary", WorkKey, InternshipsKey, ProjectsKey, "education"}
    ensures r.fields["personal_info"]
            == Obj(map["name" := Str("Candidate"), "email" := Str(""), "phone" := Str("")])
    ensures r.fields["summary"] == Str(FallbackSummary(rawText))
    ensures forall k :: k in r.fields && k != "personal_info" && k != "summary" ==> r.fields[k] == EmptyList
  {
    Obj(map[
      "personal_info" := Obj(map["name" := Str("Candidate"), "email" := Str(""), "phone" := Str("")]),
      "summary" := Str(FallbackSummary(rawText)),
      WorkKey := EmptyList,
      InternshipsKey := EmptyList,
      ProjectsKey := EmptyList,
      "education" := EmptyList])
  }

  /** The record handed to the generator: the AI's structured data when it is
      truthy, the fallback record otherwise. Either way it is truthy. */
  function RecordForGenerator(structured: Json, rawText: Option<string>): (r: Json)
    ensures Truthy(structured) ==> r == structured
    ensures !Truthy(structured) ==> r == FallbackRecord(rawText)
    ensures Truthy(r)
  {
    if Truthy(structured) then structured else FallbackRecord(rawText)
  }

  // ---------------------------------------------------------------------
  // File names and URLs
  // ---------------------------------------------------------------------

  predicate IsHexDigit(c: char)
  {
    ('0' <= c <= '9') || ('a' <= c <= 'f')
  }

  /** `uuid.uuid4().hex[:8]`: eight lower-case hexadecimal digits. */
  type HexId = s: string | |s| == 8 && forall i :: 0 <= i < |s| ==> IsHexDigit(s[i])
    witness "00000000"

  const PortfolioPrefix: string := "portfolio_"
  const EditedPrefix: string := "portfolio_edited_"
  const HtmlSuffix: string := ".html"

  /** Directory the pages are written to and served from. */
  const OutputDir: string := "generated_portfolios"

  /** Name of a generated page. */
  function PortfolioFileName(id: HexId): (r: string)
    ensures |r| == |PortfolioPrefix| + 8 + |HtmlSuffix|
    ensures r[..|PortfolioPrefix|] == PortfolioPrefix && r[|r| - |HtmlSuffix|..] == HtmlSuffix
    ensures r[|PortfolioPrefix|..|PortfolioPrefix| + 8] == id
  {
    PortfolioPrefix + id + HtmlSuffix
  }

  /** Name of a page saved from the editor. */
  function EditedFileName(id: HexId): (r: string)
    ensures |r| == |EditedPrefix| + 8 + |HtmlSuffix|
    ensures r[..|EditedPrefix|] == EditedPrefix && r[|r| - |HtmlSuffix|..] == HtmlSuffix
    ensures r[|EditedPrefix|..|EditedPrefix| + 8] == id
  {
    EditedPrefix + id + HtmlSuffix
  }

  /** Recovers the id from a generated page's name; `None` for any name
      that is not of that form. */
  function PortfolioIdOf(name: string): (r: Option<HexId>)
    ensures r.Some? ==> PortfolioFileName(r.value) == name
  {
    var n := |PortfolioPrefix|;
    if |name| == n + 8 + |HtmlSuffix| && name[..n] == PortfolioPrefix
       && name[n + 8..] == HtmlSuffix && forall i :: n <= i < n + 8 ==> IsHexDigit(name[i])
    then
      var id: HexId := name[n..n + 8];
      assert name == PortfolioPrefix + id + HtmlSuffix;
      Some(id)
    else None
  }

  /** The id of a generated page's name can be read back from it, so distinct
      ids give distinct names. */
  lemma PortfolioFileNameRoundTrip(id: HexId)
    ensures PortfolioIdOf(PortfolioFileName(id)) == Some(id)
  {
  }

  /** Generated and edited pages never share a name. */
  lemma GeneratedAndEditedNamesDiffer(a: HexId, b: HexId)
    ensures PortfolioFileName(a) != EditedFileName(b)
  {
  }

  /** `f"{base_url.rstrip('/')}/generated_portfolios/{filename}"`. */
  function PublicUrl(baseUrl: string, filename: string): (r: string)
    ensures var tail := "/" + OutputDir + "/" + filename;
      && |tail| <= |r| && r[|r| - |tail|..] == tail
      && var host := r[..|r| - |tail|];
         && |host| <= |baseUrl| && baseUrl[..|host|] == host
         && (forall i :: |host| <= i < |baseUrl| ==> baseUrl[i] == '/')
         && (host == [] || host[|host| - 1] != '/')
  {
    var host := StripTrailing(baseUrl, '/');
    var tail := "/" + OutputDir + "/" + filename;
    assert (host + tail)[..|host|] == host;
    host + tail
  }

  /** Trailing slashes on the base URL do not change the public URL. */
  lemma PublicUrlIgnoresTrailingSlash(baseUrl: string, filename: string)
    ensures PublicUrl(baseUrl + "/", filename) == PublicUrl(baseUrl, filename)
  {
  }

  // ---------------------------------------------------------------------
  // The two endpoints
  // ---------------------------------------------------------------------

  /** What the text extractor and the AI structurer produced, or that one of
      them raised. */
  datatype AiOutcome = AiRaised | AiReturned(rawText: Option<string>, structured: Json)

  /** Response of both endpoints: the public URL and the page. */
  datatype Published = Published(url: string, html: string)

  /** `generate_direct` after the upload has been read: 500 when the AI step
      raises, when the generator returns nothing or an empty page, or when
      writing the page fails (`written` is false; the write is not guarded,
      so the framework answers the exception with 500); otherwise the page
      published under `portfolio_<id>.html`. */
  function GenerateDirect(env: TemplateEnv, ai: AiOutcome, id: HexId, baseUrl: string, written: bool,
                          templateId: string := DefaultTemplate): (r: Result<Published>)
    ensures r.Err? ==> r.status == ServerError
    ensures ai.AiRaised? ==> r.Err?
    ensures ai.AiReturned? ==>
              var page := GeneratePortfolio(env, RecordForGenerator(ai.structured, ai.rawText), templateId);
              r.Ok? <==> page.Some? && page.value != "" && written
    ensures !written ==> r.Err?
    ensures r.Ok? ==> r.value.html != ""
                      && r.value.url == PublicUrl(baseUrl, PortfolioFileName(id))
                      && Some(r.value.html)
                         == GeneratePortfolio(env, RecordForGenerator(ai.structured, ai.rawText), templateId)
  {
    match ai
    case AiRaised => Err(ServerError)
    case AiReturned(rawText, structured) =>
      var page := GeneratePortfolio(env, RecordForGenerator(structured, rawText), templateId);
      if page.None? || page.value == "" then Err(ServerError)
      else if !written then Err(ServerError)
      else Ok(Published(PublicUrl(baseUrl, PortfolioFileName(id)), page.value))
  }

  /** `payload.get("html") if isinstance(payload, dict) else None`, accepted
      only when it is a non-empty string. */
  predicate ValidEditedPayload(payload: Json)
  {
    payload.Obj? && "html" in payload.fields && payload.fields["html"].Str?
    && payload.fields["html"].s != ""
  }

  /** `save_edited`: 400 unless the payload carries a non-empty `html`
      string, 500 when writing the file fails (`written` is false), otherwise
      the page published under `portfolio_edited_<id>.html`. */
  function SaveEdited(payload: Json, id: HexId, baseUrl: string, written: bool): (r: Result<Published>)
    ensures r == Err(BadRequest) <==> !ValidEditedPayload(payload)
    ensures r == Err(ServerError) <==> ValidEditedPayload(payload) && !written
    ensures r.Ok? <==> ValidEditedPayload(payload) && written
    ensures r.Ok? ==> r.value.html == payload.fields["html"].s
                      && r.value.url == PublicUrl(baseUrl, EditedFileName(id))
  {
    var html := if payload.Obj? && "html" in payload.fields then payload.fields["html"] else Null;
    if !Truthy(html) || !html.Str? then Err(BadRequest)
    else if !written then Err(ServerError)
    else Ok(Published(PublicUrl(baseUrl, EditedFileName(id)), html.s))
  }

  /** The fallback record always gets through normalisation: its context has
      empty `full_experience` and `projects`, so with the fallback the page
      depends only on the template and the fallback record. */
  lemma FallbackRecordNormalises(rawText: Option<string>)
    ensures var data := FallbackRecord(rawText).fields;
      && BuildContext(data).Some?
      && BuildContext(data).value[FullExperienceKey] == EmptyList
      && BuildContext(data).value[ProjectsKey] == EmptyList
  {
    var data := FallbackRecord(rawText).fields;
    assert ExperienceKey !in data;
    assert WorkSource(data) == EmptyList;
    assert GetOrEmpty(data, InternshipsKey) == EmptyList;
    assert MergedEntries(data) == [];
    assert GetOrEmpty(data, ProjectsKey) == EmptyList;
  }

  /** With falsy structured data and an existing template, `generate-direct`
      publishes exactly what that template renders from the fallback
      context, whenever that is a non-empty page and writing it succeeds. */
  lemma FallbackPublishesTemplate(env: TemplateEnv, rawText: Option<string>, structured: Json,
                                  id: HexId, baseUrl: string, written: bool, templateId: string)
    requires !Truthy(structured) && templateId in env.templates
    ensures var ctx := BuildContext(FallbackRecord(rawText).fields);
      && ctx.Some?
      && var page := env.templates[templateId](ctx.value);
         GenerateDirect(env, AiReturned(rawText, structured), id, baseUrl, written, templateId)
         == if page.Some? && page.value != "" && written
            then Ok(Published(PublicUrl(baseUrl, PortfolioFileName(id)), page.value))
            else Err(ServerError)
  {
  }
}

=== FILE: text.dfy ===
/** String operations of Python's `str` that the handlers rely on:
    `strip()`, `rstrip(c)`, slicing to a maximum length, and `lower()`. */
module Text {

  /** Python's `str.isspace()` for a single character: the characters whose
      bidirectional class is WS, B or S, or whose category is Zs. */
  predicate IsSpace(c: char)
  {
    || ('\U{0009}' <= c <= '\U{000D}')
    || ('\U{001C}' <= c <= '\U{0020}')
    || c == '\U{0085}' || c == '\U{00A0}' || c == '\U{1680}'
    || ('\U{2000}' <= c <= '\U{200A}')
    || c == '\U{2028}' || c == '\U{2029}' || c == '\U{202F}'
    || c == '\U{205F}' || c == '\U{3000}'
  }

  /** True when every character of `s` is whitespace (including `s == ""`). */
  predicate AllSpace(s: string)
  {
    forall i :: 0 <= i < |s| ==> IsSpace(s[i])
  }

  /** Index of the first non-whitespace character of `s` at or after `k`
      (`|s|` when there is none). */
  function SkipSpace(s: string, k: nat): (n: nat)
    requires k <= |s|
    ensures k <= n <= |s|
    ensures forall i :: k <= i < n ==> IsSpace(s[i])
    ensures n == |s| || !IsSpace(s[n])
    decreases |s| - k
  {
    if k < |s| && IsSpace(s[k]) then SkipSpace(s, k + 1) else k
  }

  /** Index just past the last non-whitespace character of `s` at or after
      `lo` (`lo` when there is none). */
  function SkipSpaceBack(s: string, lo: nat, k: nat): (m: nat)
    requires lo <= k <= |s|
    ensures lo <= m <= k
    ensures forall i :: m <= i < k ==> IsSpace(s[i])
    ensures m == lo || !IsSpace(s[m - 1])
    decreases k
  {
    if lo < k && IsSpace(s[k - 1]) then SkipSpaceBack(s, lo, k - 1) else k
  }

  /** `s.strip()`: `s` without its leading and trailing whitespace. */
  function Strip(s: string): (r: string)
    ensures |r| <= |s|
    ensures r == [] || (!IsSpace(r[0]) && !IsSpace(r[|r| - 1]))
    ensures r == [] <==> AllSpace(s)
    ensures var i := SkipSpace(s, 0);
      && i + |r| <= |s| && s[i..i + |r|] == r
      && AllSpace(s[..i]) && AllSpace(s[i + |r|..])
  {
    var i := SkipSpace(s, 0);
    var j := SkipSpaceBack(s, i, |s|);
    assert AllSpace(s[..i]) by {
      forall k | 0 <= k < i ensures IsSpace(s[..i][k]) { assert s[..i][k] == s[k]; }
    }
    assert AllSpace(s[j..]) by {
      forall k | 0 <= k < |s| - j ensures IsSpace(s[j..][k]) { assert s[j..][k] == s[j + k]; }
    }
    s[i..j]
  }

  /** `s[:n]` for `n >= 0`: the first `n` characters, or all of `s` when it is
      shorter. */
  function Take(s: string, n: nat): (r: string)
    ensures |r| <= n && |r| <= |s|
    ensures |r| == n || r == s
    ensures r == s[..|r|]
  {
    if |s| <= n then s else s[..n]
  }

  /** `s.rstrip(c)`: `s` without the run of `c` characters at its end. */
  function StripTrailing(s: string, c: char): (r: string)
    ensures |r| <= |s| && r == s[..|r|]
    ensures forall i :: |r| <= i < |s| ==> s[i] == c
    ensures r == [] || r[|r| - 1] != c
    decreases |s|
  {
    if |s| > 0 && s[|s| - 1] == c then StripTrailing(s[..|s| - 1], c) else s
  }

  /** `w` occurs in `s` starting at index `i`. */
  predicate OccursAt(s: string, w: string, i: int)
  {
    0 <= i && i + |w| <= |s| && s[i..i + |w|] == w
  }

  /** `w in s` for strings: `w` is a substring of `s`. */
  predicate Contains(s: string, w: string)
  {
    exists i :: 0 <= i <= |s| && OccursAt(s, w, i)
  }

  /** Upper-case ASCII letter. */
  predicate IsUpper(c: char)
  {
    'A' <= c <= 'Z'
  }

  /** `c.lower()` for ASCII letters. */
  function LowerChar(c: char): (r: char)
    ensures !IsUpper(r)
    ensures !IsUpper(c) ==> r == c
  {
    if IsUpper(c) then (c as int - 'A' as int + 'a' as int) as char else c
  }

  /** `s.lower()`, restricted to the ASCII letters. */
  function Lower(s: string): (r: string)
    ensures |r| == |s|
    ensures forall i :: 0 <= i < |s| ==> r[i] == LowerChar(s[i])
    ensures forall i :: 0 <= i < |r| ==> !IsUpper(r[i])
    ensures forall i :: 0 <= i < |s| && !IsUpper(s[i]) ==> r[i] == s[i]
  {
    seq(|s|, i requires 0 <= i < |s| => LowerChar(s[i]))
  }
}

=== FILE: wrappers.dfy ===
/** Outcome types shared by the model: an optional value, and the result of
    an HTTP handler, which either returns a value or fails with a status code. */
module Wrappers {

  /** `None` stands for Python's `None` returned in place of a value. */
  datatype Option<+T> = None | Some(value: T)

  /** `Err(status)` stands for an `HTTPException(status_code=status)` raised by
      a handler, or for an exception the handler does not catch, which the web
      framework answers with status 500. */
  datatype Result<+T> = Ok(value: T) | Err(status: nat)

  /** Status code of a request the handler refuses as malformed. */
  const BadRequest: nat := 400

  /** Status code of a failure on the server side. */
  const ServerError: nat := 500
}
